=== FILE: README.md ===
# Badge bookkeeping of BadgedTabbedPageRenderer

`BadgedTabbedPageRenderer` is the Android renderer of Plugin.Badge. It
overlays a `BadgeView` on each tab of a Xamarin.Forms `TabbedPage`. Most of
the class is calls into Android, but underneath it runs a small sequential
state machine that the renderer owns:

- the `BadgeViews` registry, from tab element to badge;
- the subscriptions of `OnTabbedPagePropertyChanged` to each tab's
  `PropertyChanged` event;
- the subscriptions of `OnTabAdded` and `OnTabRemoved` to the tabbed page's
  `ChildAdded` and `ChildRemoved` events;
- the cached container views `_tabLayout`, `_tabStrip` and
  `_bottomNavigationView`.

This project models that state machine in Dafny and proves the following
properties:

- No element ever carries the property handler twice.
- Every registered tab is subscribed.
- Teardown empties the registry.
- The host-view and anchor decision inside `AddTabBadge` behaves as
  described under `HostView` and `ChooseBadge` below.

Modules, one per component:

- `Base`: `Option` for nullable references, `Fault` for the .NET exceptions
  the code can raise (`NullReferenceException`, `ArgumentOutOfRangeException`,
  `InvalidCastException`), and `Result`.
- `Forms`: the Xamarin.Forms side. Elements by identity, the `TabbedPage`
  (identity, current children and toolbar placement), and `IList.IndexOf`.
- `Locator`: the tab locator. An abstract `View`, and `Widgets`, a record of
  total functions. Each function stands for one Android widget call or one
  `FindChildOfType` query. The module also holds host-view selection and the
  reuse-or-build choice of a badge.
- `Registry`: the renderer's state. .NET `+=` and `-=` on an event are
  modelled as adding and removing one occurrence in a multiset. The module
  also defines the invariant `Valid`.
- `Lifecycle`: the event handlers as pure transitions. Each handler returns a
  `Step`: the new state and how the handler ended (`Done`, `NotFound` for the
  logged early return, or `Threw(fault)`). When a handler throws, the effects
  it made before the exception are kept, as in .NET.
- `Sessions`: arbitrary sequences of events, an invariant over all of them,
  and concrete scenarios.

Each handler takes the environment as parameters: the renderer's current
`Element` (with its current children) and the answers of the Android view
tree at that moment. The toolkit owns both and changes them between events.
Four behaviours of the code that the model keeps as they are:
- The toolbar placement is part of the element and is read again on every
  call to `AddTabBadge`; it is not fixed when the renderer binds.
- Teardown nulls `_tabLayout` and `_tabStrip` but keeps
  `_bottomNavigationView`.
- A missing `TabLayout.Tab`, or a bottom-menu child that is not a view
  group, raises an exception; neither is a recoverable "not found yet"
  outcome.
- With no current element, `IsBottomTabPlacement` is false. If a
  `TabLayout` is still found, binding throws NullReference: at
  `Element.Children` in the first `AddTabBadge`, or at `Element.ChildAdded`
  when there are no tabs.

The deferred part of
`OnTabAdded` runs after `Task.Delay`. The model treats it as a separate event
that may arrive after any other event.

## Model

| member | source | states |
|---|---|---|
| `Forms.IndexOf` | Source/Plugin.Badge.Droid/BadgedTabbedPageRenderer.cs:135 | The result is -1 exactly when the page is not a child. Otherwise it is the position of the page's first occurrence. |
| `Locator.HostView` | Source/Plugin.Badge.Droid/BadgedTabbedPageRenderer.cs:80-87 | Bottom-bar mode: the host is child `tabIndex` of the bottom navigation view's first child. It is null when the navigation view or its first child is missing. The call throws InvalidCast exactly when that first child is not a view group. Top-strip mode: the host is the tab's custom view when the tab has one, otherwise child `tabIndex` of the tab strip. The call throws NullReference exactly when the tab layout is cached but `GetTabAt` returns null. |
| `Locator.ChooseBadge` | Source/Plugin.Badge.Droid/BadgedTabbedPageRenderer.cs:89-101 | An existing badge in the host is reused exactly when there is one. Otherwise the anchor is the image view if it has a drawable, and the text view if not. A non-null anchor implies the host is a view group. |
| `Locator.BottomModeIgnoresTabLayout` | Source/Plugin.Badge.Droid/BadgedTabbedPageRenderer.cs:80-83 | In bottom-bar mode the host view does not depend on the cached tab layout or tab strip. |
| `Locator.TopModeIgnoresBottomNav` | Source/Plugin.Badge.Droid/BadgedTabbedPageRenderer.cs:84-87 | In top-strip mode the host view does not depend on the cached bottom navigation view. |
| `Locator.CustomViewShadowsStrip` | Source/Plugin.Badge.Droid/BadgedTabbedPageRenderer.cs:86 | When a tab has a custom view, the tab strip is never consulted and the lookup does not throw. |
| `Registry.Subscribe` | Source/Plugin.Badge.Droid/BadgedTabbedPageRenderer.cs:108 | `+=` adds exactly one occurrence of the handler on that source and changes no other source. |
| `Registry.Unsubscribe` | Source/Plugin.Badge.Droid/BadgedTabbedPageRenderer.cs:107 | `-=` removes one occurrence of the handler from that source, or does nothing when there is none. No other source changes. |
| `Registry.SubscribeUnsubscribeInverse` | Source/Plugin.Badge.Droid/BadgedTabbedPageRenderer.cs:107-108 | `-=` after `+=` restores the subscriptions. `+=` after `-=` restores them whenever the source was subscribed, so re-subscribing a subscribed tab changes nothing. |
| `Registry.UnsubscribeEach` | Source/Plugin.Badge.Droid/BadgedTabbedPageRenderer.cs:152-155 | Running `-=` once per child leaves the subscriptions minus one occurrence per child, in the multiset sense. |
| `Registry.InitialIsValid` | Source/Plugin.Badge.Droid/BadgedTabbedPageRenderer.cs:19-25 | A new renderer has an empty registry and satisfies the invariant. |
| `Lifecycle.AddTabBadge` | Source/Plugin.Badge.Droid/BadgedTabbedPageRenderer.cs:75-109 | With no element the call throws NullReference. An index outside the children throws ArgumentOutOfRange. A failed host lookup throws. Every throw leaves the state unchanged, given that the badge's constructor and `UpdateFromElement` do not throw. On success, `Children[tabIndex]` maps to the chosen badge and every other entry is unchanged. The tab then has max(1, previous) handlers, so 0 or 1 becomes exactly 1, and no other subscription changes. The invariant is preserved. |
| `Lifecycle.OnTabbedPagePropertyChanged` | Source/Plugin.Badge.Droid/BadgedTabbedPageRenderer.cs:111-120 | A change is forwarded to a badge exactly when the sender is an element in the registry, and the badge is that element's entry. The handler returns no new state. |
| `Lifecycle.OnTabRemoved` | Source/Plugin.Badge.Droid/BadgedTabbedPageRenderer.cs:122-126 | Removal deletes the tab's entry and one of its subscriptions, if it has any. Under the invariant the tab is then unsubscribed. All other entries, subscriptions and caches are untouched, and the invariant is preserved. |
| `Lifecycle.Cleanup` | Source/Plugin.Badge.Droid/BadgedTabbedPageRenderer.cs:145-163 | A null page leaves everything unchanged. Otherwise one subscription is removed per current child, one child-added and one child-removed subscription of the page are removed, and the registry is emptied. `_tabLayout` and `_tabStrip` are nulled but `_bottomNavigationView` is kept. Under the invariant, none of the page's children and not the page itself remains subscribed. |
| `Lifecycle.Dispose` | Source/Plugin.Badge.Droid/BadgedTabbedPageRenderer.cs:138-143 | With no current element, disposing changes nothing. With one, it empties the registry and nulls the tab layout and tab strip but keeps the bottom navigation view. Under the invariant it leaves no subscription on the element or its children. The invariant is preserved. |
| `Lifecycle.AttachTabs` | Source/Plugin.Badge.Droid/BadgedTabbedPageRenderer.cs:48-51 | The attach loop only adds registry entries, and only for children of the element. When it completes, it has registered exactly the tabs at positions `from .. count-1` and `count` is within the children. A property subscription changes only for a tab that ends up registered. With no element, a non-empty loop throws NullReference at once and changes nothing. It never touches child subscriptions or caches, and it preserves the invariant. Which badge each tab gets is stated by `Lifecycle.AttachTabsBadges`. |
| `Lifecycle.AttachTabsStops` | Source/Plugin.Badge.Droid/BadgedTabbedPageRenderer.cs:48-67 | The attach loop stops at the first exception. When it raises, there is a tab `k` in `from .. count-1` such that the loop over `from .. k-1` completes and leaves exactly the state reached, and attaching tab `k` from that state raises the same exception. By the contract of `AttachTabs`, exactly the tabs at positions `from .. k-1` were registered and nothing after them. |
| `Lifecycle.StopIndex` | Source/Plugin.Badge.Droid/BadgedTabbedPageRenderer.cs:48-67 | Computes that tab `k` for a loop that raised, by induction over the loop. |
| `Lifecycle.AttachTabsBadges` | Source/Plugin.Badge.Droid/BadgedTabbedPageRenderer.cs:48-103 | Whether or not the loop raises, the registry entry of every tab that no visited position holds is unchanged. When the loop completes, each tab at a visited position that does not recur later in the loop maps to the badge chosen for its host: the badge already in the host, or else one built on its anchor. The host is looked up with the containers cached when the loop ends. |
| `Lifecycle.SubscribeChildEvents` | Source/Plugin.Badge.Droid/BadgedTabbedPageRenderer.cs:70-71 | After an attach loop that did not raise, the element gets one more child-added and child-removed subscription; with no element the access throws. No other page's child subscriptions, no property subscription, entry or cache changes. |
| `Lifecycle.AttachAndSubscribe` | Source/Plugin.Badge.Droid/BadgedTabbedPageRenderer.cs:48-71 | The loop followed by the child subscriptions registers exactly the first `count` tabs on completion. Only the element's own child subscriptions change, and a property subscription changes only for a registered tab. With no element the call throws NullReference. Which badge each tab gets is stated by `Lifecycle.AttachAndSubscribeBadges`. |
| `Lifecycle.AttachAndSubscribeBadges` | Source/Plugin.Badge.Droid/BadgedTabbedPageRenderer.cs:48-71 | When the loop and the child subscriptions complete, each of the first `count` tabs that does not recur later maps to the badge chosen for its host in the cached containers. |
| `Lifecycle.LocateAndAttach` | Source/Plugin.Badge.Droid/BadgedTabbedPageRenderer.cs:39-71 | Bind after cleanup returns early exactly when the container is missing. Only the element's own child subscriptions change, and a property subscription changes only for a registered tab. It caches the containers of the current placement. With no element and a tab layout found, the call throws NullReference. Which badge each tab gets is stated by `Lifecycle.LocateAndAttachBadges`. |
| `Lifecycle.LocateAndAttachBadges` | Source/Plugin.Badge.Droid/BadgedTabbedPageRenderer.cs:39-71 | When bind after cleanup completes, each of the first `Menu.Size()` or `TabCount` tabs that does not recur later maps to the badge chosen for its host in the containers bind cached. |
| `Lifecycle.CleanupsBeforeBind` | Source/Plugin.Badge.Droid/BadgedTabbedPageRenderer.cs:35-37 | After the two cleanups the registry is empty whenever there is a current element. Under the invariant neither the old nor the new element has a child subscription left, and none of the tabs of either element has a property subscription left. |
| `Lifecycle.OnElementChanged` | Source/Plugin.Badge.Droid/BadgedTabbedPageRenderer.cs:31-72 | Bind returns early exactly when the container for the current placement is missing. In that case, with a current element, the registry is empty, and under the invariant that element has no child handler. On completion, the registry holds exactly the first `Menu.Size()` or `TabCount` children, and under the invariant the page has exactly one child-added and one child-removed handler. The registry only ever holds the current element's children, and the invariant is preserved. Under the invariant, after a rebind to a different page, the old page has no child-added or child-removed handler left, and each of its tabs that is not attached again has no property handler left. With no current element and a tab layout found, bind throws NullReference. Which badge each tab gets is stated by `Lifecycle.BindBadges`. |
| `Lifecycle.BindBadges` | Source/Plugin.Badge.Droid/BadgedTabbedPageRenderer.cs:31-72 | When `OnElementChanged` completes, each of the first `Menu.Size()` or `TabCount` tabs of the current element that does not recur later maps to the badge chosen for its host in the containers the renderer now caches. |
| `Lifecycle.ElementChangedCaches` | Source/Plugin.Badge.Droid/BadgedTabbedPageRenderer.cs:39-62 | Bottom-bar mode caches the navigation view found (possibly null) and no tab layout or tab strip. Top-strip mode caches the tab layout found and its strip, and keeps a stale bottom navigation view. |
| `Lifecycle.OnTabAdded` | Source/Plugin.Badge.Droid/BadgedTabbedPageRenderer.cs:128-136 | As written: a child that is not a page is ignored. With no element the handler throws NullReference. A page that is no longer a child makes it throw ArgumentOutOfRange. For a page that is a child, it throws exactly when the host lookup at the page's index fails. On completion the page maps to the badge chosen for that host and ends with exactly one handler if it had at most one. Every other entry, subscription and cache is unchanged, and a throw changes nothing. |
| `Lifecycle.OnTabAddedGuarded` | Source/Plugin.Badge.Droid/BadgedTabbedPageRenderer.cs:128-136 | Corrected: the handler never throws ArgumentOutOfRange. A page that is no longer a child, a child that is not a page, or a missing element leaves the state unchanged. Otherwise it behaves as the code does, and on completion the page is attached as `OnTabAdded` states. The invariant is preserved. |
| `Lifecycle.TabRemovedDuringDelay` | Source/Plugin.Badge.Droid/BadgedTabbedPageRenderer.cs:77 | For a page that is not among the children, IndexOf returns -1 and the continuation as written throws ArgumentOutOfRange, whatever the state. The guarded continuation leaves the state unchanged. |
| `Lifecycle.AddTabBadgeIdempotent` | Source/Plugin.Badge.Droid/BadgedTabbedPageRenderer.cs:103-108 | On an unchanged view tree, a second attach of the same tab leaves the registry and the subscriptions as one attach does: no second subscription. |
| `Lifecycle.SecondAttachReusesBadge` | Source/Plugin.Badge.Droid/BadgedTabbedPageRenderer.cs:89-108 | When the view tree reports the badge the first attach registered, a second attach takes the reuse path, builds no new badge, and leaves the state exactly as it was. |
| `Lifecycle.PropertyChangeReachesAttachedBadge` | Source/Plugin.Badge.Droid/BadgedTabbedPageRenderer.cs:111-126 | A property change of a tab just attached reaches the badge registered for it. After the tab is removed, its changes reach no badge. |
| `Lifecycle.ExistingBadgeReused` | Source/Plugin.Badge.Droid/BadgedTabbedPageRenderer.cs:89-103 | When the host already holds a badge, that badge is the one registered for the tab. |
| `Lifecycle.CleanupIdempotent` | Source/Plugin.Badge.Droid/BadgedTabbedPageRenderer.cs:145-163 | Under the invariant, a second cleanup of the same page changes nothing. |
| `Sessions.Apply` | Source/Plugin.Badge.Droid/BadgedTabbedPageRenderer.cs:31-143 | Every event preserves the invariant: at most one subscription per source, and every registered tab subscribed. |
| `Sessions.RunKeepsValid` | Source/Plugin.Badge.Droid/BadgedTabbedPageRenderer.cs:103-108 | The invariant holds after any sequence of events. Every registered tab then has exactly one property-changed handler. |
| `Sessions.TeardownAfterAnyRun` | Source/Plugin.Badge.Droid/BadgedTabbedPageRenderer.cs:138-163 | After any history, disposing empties the registry and leaves no subscription on the element or its tabs. |
| `Sessions.TopStripTab` | Source/Plugin.Badge.Droid/BadgedTabbedPageRenderer.cs:86-100 | In a top-strip tree without custom views, tab `i` is hosted by the strip's child `i` and gets a new badge on its label. |
| `Sessions.BindThreeTabs` | Source/Plugin.Badge.Droid/BadgedTabbedPageRenderer.cs:55-71 | Binding to three tabs in top-strip mode gives each tab a badge on its own label and one subscription. The page gets one child-added and one child-removed handler. |
| `Sessions.AddFourthTab` | Source/Plugin.Badge.Droid/BadgedTabbedPageRenderer.cs:128-135 | A fourth tab attached after the delay gets exactly one new badge, at index 3. The other entries are unchanged. |
| `Sessions.RemoveSecondTab` | Source/Plugin.Badge.Droid/BadgedTabbedPageRenderer.cs:122-126 | Removing the second tab removes only its badge and its subscription. |
| `Sessions.AddedThenRemovedBeforeDelay` | Source/Plugin.Badge.Droid/BadgedTabbedPageRenderer.cs:130-135 | A page added and removed again before the delay elapses makes the continuation as written throw. The guarded continuation does nothing. |

## Left out

- `new BadgeView(Context, target)`, `UpdateFromElement` and `UpdateFromPropertyChangedEvent` are foreign UI code. A badge is represented by the anchor it wraps. Building a badge on a null anchor is not modelled as failing.
- Lifecycle.AddTabBadge: assumes that the badge's constructor and `UpdateFromElement` never throw. The code registers the badge before `UpdateFromElement` runs and before the tab is subscribed. A throw there would leave a registered tab with no handler, which breaks the invariant "every registered tab is subscribed". The invariant, and every result built on it, depends on this assumption.
- The Android widgets and `FindChildOfType` (`GetChildAt`, `GetTabAt`, `Menu.Size()`, `TabCount`, `Drawable`) are foreign code. They are the uninterpreted functions of `Locator.Widgets`. Building a badge does not update these answers, so a badge built in one event is found in a later one only if the supplied `Widgets` says so.
- The timing of `Task.Delay` and the scheduling of `async void` are not modelled. The deferred add is an event that may come after any other event.
- An exception escaping the `async void` continuation would crash the process. The model records it as `Threw` and lets the session go on.
- `Console.WriteLine` is not modelled; the logged early return is the outcome `NotFound`.
- The constructor, `base.OnElementChanged` and `base.Dispose` belong to the base `TabbedPageRenderer`, which is not part of this model.
- The platform configuration read by `IsBottomTabPlacement` is taken as a boolean on the element.
- The property name carried by `PropertyChangedEventArgs` is not modelled. The model only states which badge receives the change.
- Sessions deliver child-added and child-removed events whether or not the renderer is subscribed to them. This covers every real order of events, plus some that cannot happen.
- `Sessions.Apply` uses the corrected `OnTabAddedGuarded`. With the code as written, `Lifecycle.OnTabAdded` also preserves the invariant, because a throw changes nothing.

## Findings

| source | as written | input that shows it | evidently intended | confidence | as-written member | corrected member |
|---|---|---|---|---|---|---|
| Source/Plugin.Badge.Droid/BadgedTabbedPageRenderer.cs:135 | After the delay, `AddTabBadge(Element.Children.IndexOf(page))` runs without checking that the page is still a tab. | A page is added, then removed before the 10 ms delay elapses. `IndexOf` returns -1, and `Children[-1]` throws `ArgumentOutOfRangeException` in an `async void` continuation. | The continuation silently does nothing when the page is no longer a child of the current element. | high; not executed | `Lifecycle.OnTabAdded` (exhibited by `Lifecycle.TabRemovedDuringDelay` and `Sessions.AddedThenRemovedBeforeDelay`) | `Lifecycle.OnTabAddedGuarded` |

=== FILE: base.dfy ===
/** Failure-aware values shared by the whole model: a nullable reference
    and the .NET exceptions the renderer's code can raise. */
module Base {

  /** A reference that may be null. */
  datatype Option<T> = None | Some(value: T)

  /** The exceptions the renderer can raise while handling an event. */
  datatype Fault =
    | NullReference       // a member access through a null reference
    | ArgumentOutOfRange  // IList indexer outside 0 .. Count-1
    | InvalidCast         // an explicit (ViewGroup) cast of a view that is not one

  /** Either a value or the exception raised while computing it. */
  datatype Result<T> = Ok(value: T) | Err(fault: Fault)
}

=== FILE: forms.dfy ===
/** The Xamarin.Forms side of the renderer: logical elements, by identity
    only, and the tabbed page whose children are the tabs. The renderer
    never creates or mutates these; the toolkit owns them. */
module Forms {

  /** A logical element. Only pages can be tabs, but child-added and
      child-removed notifications may carry any element. */
  datatype Element = Page(id: nat) | Other(id: nat)

  /** The tabbed page bound to the renderer: its identity, its children
      (the tabs, in order) as the toolkit currently holds them, and the
      toolbar placement configured for Android. */
  datatype TabbedPage = TabbedPage(id: nat, children: seq<Element>, bottomPlacement: bool)

  /** IList.IndexOf: the position of the first occurrence of `x`, or -1. */
  function IndexOf(xs: seq<Element>, x: Element): (r: int)
    ensures -1 <= r < |xs|
    ensures r == -1 <==> x !in xs
    ensures 0 <= r ==> xs[r] == x && x !in xs[..r]
  {
    if |xs| == 0 then -1
    else if xs[0] == x then 0
    else
      var k := IndexOf(xs[1..], x);
      assert k >= 0 ==> xs[..k + 1] == [xs[0]] + xs[1..][..k];
      if k == -1 then -1 else k + 1
  }
}

=== FILE: lifecycle.dfy ===
/** The event handlers of BadgedTabbedPageRenderer, each a pure transition
    of the renderer's state. `element` is always the renderer's current
    Element, as the toolkit holds it when the handler runs, and `w` the
    answers of the Android view tree at that moment. */
module Lifecycle {
  import opened Base
  import opened Forms
  import opened Locator
  import opened Registry

  /** How a handler ended: normally, by the early return that logs a
      missing container, or by raising an exception. */
  datatype Outcome = Done | NotFound | Threw(fault: Fault)

  /** The state a handler leaves behind, with how it ended. Effects made
      before an exception are kept, as in .NET. */
  datatype Step = Step(state: Renderer, outcome: Outcome)

  /** IsBottomTabPlacement: read afresh every time it is evaluated. */
  predicate IsBottomTabPlacement(element: Option<TabbedPage>)
  {
    element.Some? && element.value.bottomPlacement
  }

  /** `s` and `r` agree on everything except the entry and the
      subscription of `tab`, which now maps to `badge` and is subscribed
      exactly as often as before, but at least once. */
  ghost predicate Attached(s: Renderer, r: Renderer, tab: Element, badge: BadgeView)
  {
    && tab in r.badgeViews && r.badgeViews[tab] == badge
    && (forall e | e != tab :: e in r.badgeViews <==> e in s.badgeViews)
    && (forall e | e != tab && e in s.badgeViews :: r.badgeViews[e] == s.badgeViews[e])
    && r.propertyChanged[tab] == (if s.propertyChanged[tab] == 0 then 1 else s.propertyChanged[tab])
    && (forall e | e != tab :: r.propertyChanged[e] == s.propertyChanged[e])
    && r.childAdded == s.childAdded
    && r.childRemoved == s.childRemoved
    && r.cache == s.cache
  }

  /** AddTabBadge(tabIndex): register a badge for Children[tabIndex] and
      subscribe to its property changes with the unsubscribe-then-subscribe
      idiom. Every exception modelled here comes before any effect: the
      badge's constructor and UpdateFromElement, which run between the
      registration and the subscription, are taken not to throw. */
  function AddTabBadge(s: Renderer, w: Widgets, element: Option<TabbedPage>, tabIndex: int): (r: Step)
    ensures r.outcome != NotFound
    ensures r.outcome.Threw? ==> r.state == s
    ensures element.None? ==> r.outcome == Threw(NullReference)
    ensures element.Some? && !(0 <= tabIndex < |element.value.children|) ==>
      r.outcome == Threw(ArgumentOutOfRange)
    ensures element.Some? && 0 <= tabIndex < |element.value.children| ==>
      (r.outcome.Threw? <==> HostView(w, s.cache, element.value.bottomPlacement, tabIndex).Err?)
    ensures r.outcome == Done ==>
      && element.Some? && 0 <= tabIndex < |element.value.children|
      && var host := HostView(w, s.cache, element.value.bottomPlacement, tabIndex);
         host.Ok? && Attached(s, r.state, element.value.children[tabIndex], BadgeOf(ChooseBadge(w, host.value)))
    ensures Valid(s) ==> Valid(r.state)
  {
    if element.None? then Step(s, Threw(NullReference))
    else if !(0 <= tabIndex < |element.value.children|) then Step(s, Threw(ArgumentOutOfRange))
    else
      var tab := element.value.children[tabIndex];
      match HostView(w, s.cache, IsBottomTabPlacement(element), tabIndex)
      case Err(f) => Step(s, Threw(f))
      case Ok(host) =>
        var badge := BadgeOf(ChooseBadge(w, host));
        var handlers := Subscribe(Unsubscribe(s.propertyChanged, tab), tab);
        Step(s.(badgeViews := s.badgeViews[tab := badge], propertyChanged := handlers), Done)
  }

  /** Where OnTabbedPagePropertyChanged's `sender` came from. */
  datatype Sender = FromElement(element: Element) | FromOther

  /** OnTabbedPagePropertyChanged: the badge that receives the change, if
      any. The handler never changes the renderer's state. */
  function OnTabbedPagePropertyChanged(s: Renderer, sender: Sender): (r: Option<BadgeView>)
    ensures r.Some? <==> sender.FromElement? && sender.element in s.badgeViews
    ensures r.Some? ==> r.value == s.badgeViews[sender.element]
  {
    match sender
    case FromOther => None
    case FromElement(e) => if e in s.badgeViews then Some(s.badgeViews[e]) else None
  }

  /** OnTabRemoved: forget the tab's badge and drop its subscription. */
  function OnTabRemoved(s: Renderer, child: Element): (r: Renderer)
    ensures r.badgeViews.Keys == s.badgeViews.Keys - {child}
    ensures forall e | e in r.badgeViews :: r.badgeViews[e] == s.badgeViews[e]
    ensures r.propertyChanged[child] == if s.propertyChanged[child] == 0 then 0 else s.propertyChanged[child] - 1
    ensures Valid(s) ==> child !in r.propertyChanged
    ensures forall e | e != child :: r.propertyChanged[e] == s.propertyChanged[e]
    ensures r.childAdded == s.childAdded && r.childRemoved == s.childRemoved && r.cache == s.cache
    ensures Valid(s) ==> Valid(r)
  {
    s.(propertyChanged := Unsubscribe(s.propertyChanged, child), badgeViews := s.badgeViews - {child})
  }

  /** Cleanup(page): unsubscribe from every current child of the page and
      from the page's child notifications, empty the registry and forget
      the tab layout and tab strip. The bottom navigation view is kept. */
  function Cleanup(s: Renderer, page: Option<TabbedPage>): (r: Renderer)
    ensures page.None? ==> r == s
    ensures page.Some? ==>
      && r.badgeViews == map[]
      && r.propertyChanged == s.propertyChanged - multiset(page.value.children)
      && r.childAdded[page.value.id] == (if s.childAdded[page.value.id] == 0 then 0 else s.childAdded[page.value.id] - 1)
      && r.childRemoved[page.value.id] == (if s.childRemoved[page.value.id] == 0 then 0 else s.childRemoved[page.value.id] - 1)
      && (forall id | id != page.value.id :: r.childAdded[id] == s.childAdded[id] && r.childRemoved[id] == s.childRemoved[id])
      && r.cache == Containers(None, None, s.cache.bottomNav)
    ensures page.Some? && Valid(s) ==>
      && (forall e | e in page.value.children :: e !in r.propertyChanged)
      && page.value.id !in r.childAdded
      && page.value.id !in r.childRemoved
    ensures Valid(s) ==> Valid(r)
  {
    if page.None? then s
    else
      RemovalKeepsAtMostOnce(s.propertyChanged, multiset(page.value.children));
      RemovalKeepsAtMostOnce(s.childAdded, multiset{page.value.id});
      RemovalKeepsAtMostOnce(s.childRemoved, multiset{page.value.id});
      Renderer(
        badgeViews := map[],
        propertyChanged := UnsubscribeEach(s.propertyChanged, page.value.children),
        childRemoved := Unsubscribe(s.childRemoved, page.value.id),
        childAdded := Unsubscribe(s.childAdded, page.value.id),
        cache := s.cache.(tabLayout := None, tabStrip := None))
  }

  /** Dispose: tear down whatever the current element has attached. */
  function Dispose(s: Renderer, element: Option<TabbedPage>): (r: Renderer)
    ensures element.None? ==> r == s
    ensures element.Some? ==> r.badgeViews == map[]
    ensures element.Some? ==> r.cache == Containers(None, None, s.cache.bottomNav)
    ensures element.Some? && Valid(s) ==>
      && (forall e | e in element.value.children :: e !in r.propertyChanged)
      && element.value.id !in r.childAdded
      && element.value.id !in r.childRemoved
    ensures Valid(s) ==> Valid(r)
  {
    Cleanup(s, element)
  }

  /** The tabs at positions from .. count-1. */
  ghost function TabsBetween(children: seq<Element>, from: nat, count: nat): set<Element>
    requires from <= count <= |children|
  {
    set j | from <= j < count :: children[j]
  }

  lemma TabsBetweenSplit(children: seq<Element>, from: nat, count: nat)
    requires from < count <= |children|
    ensures TabsBetween(children, from, count) == {children[from]} + TabsBetween(children, from + 1, count)
  {
  }

  /** The attach loop that started at `from` from state `s` raised at tab
      `k`: the loop over the tabs before `k` completes in exactly the state
      reached, and attaching tab `k` from there raises that exception. */
  predicate StoppedAt(s: Renderer, r: Step, w: Widgets, element: Option<TabbedPage>, from: nat, k: nat)
    requires from <= k
  {
    && r.outcome.Threw?
    && AttachTabs(s, w, element, from, k) == Step(r.state, Done)
    && AddTabBadge(r.state, w, element, k).outcome == r.outcome
  }

  /** A loop whose first attach succeeded continues with the rest of the
      loop from the state it reached. */
  lemma LaterAttach(s: Renderer, w: Widgets, element: Option<TabbedPage>, from: nat, count: nat)
    requires from < count
    requires !AddTabBadge(s, w, element, from).outcome.Threw?
    ensures AttachTabs(s, w, element, from, count)
         == AttachTabs(AddTabBadge(s, w, element, from).state, w, element, from + 1, count)
  {
  }

  /** A loop whose first attach raised stopped at its first tab. */
  lemma FirstAttachRaised(s: Renderer, w: Widgets, element: Option<TabbedPage>, from: nat, count: nat)
    requires from < count
    requires AddTabBadge(s, w, element, from).outcome.Threw?
    ensures StoppedAt(s, AttachTabs(s, w, element, from, count), w, element, from, from)
  {
    assert AttachTabs(s, w, element, from, count) == AddTabBadge(s, w, element, from);
  }

  /** AddTabBadge(i) for i = from, ..., count - 1, stopping at the first
      exception, as the loops of OnElementChanged do. */
  function AttachTabs(s: Renderer, w: Widgets, element: Option<TabbedPage>, from: nat, count: nat): (r: Step)
    requires from <= count
    decreases count - from
    ensures r.outcome != NotFound
    ensures r.state.childAdded == s.childAdded && r.state.childRemoved == s.childRemoved
    ensures r.state.cache == s.cache
    ensures element.None? && from < count ==> r == Step(s, Threw(NullReference))
    ensures s.badgeViews.Keys <= r.state.badgeViews.Keys
    ensures forall e | e in r.state.badgeViews && e !in s.badgeViews ::
      element.Some? && e in element.value.children
    ensures r.outcome == Done && from < count ==>
      element.Some? && count <= |element.value.children|
    ensures r.outcome == Done && element.Some? && count <= |element.value.children| ==>
      r.state.badgeViews.Keys == s.badgeViews.Keys + TabsBetween(element.value.children, from, count)
    ensures forall e | r.state.propertyChanged[e] != s.propertyChanged[e] :: e in r.state.badgeViews
    ensures Valid(s) ==> Valid(r.state)
  {
    if from == count then Step(s, Done)
    else
      var first := AddTabBadge(s, w, element, from);
      if first.outcome.Threw? then first
      else
        var tab := element.value.children[from];
        assert first.state.badgeViews.Keys == s.badgeViews.Keys + {tab};
        var rest := AttachTabs(first.state, w, element, from + 1, count);
        if rest.outcome == Done && count <= |element.value.children| then
          TabsBetweenSplit(element.value.children, from, count);
          rest
        else rest
  }

  /** The badge AddTabBadge registers for tab `j` of `page` with the
      containers `c` cached: the one already in the host, or else one built
      on the host's icon or label. None when the host lookup raises. */
  function ChosenBadge(w: Widgets, c: Containers, page: TabbedPage, j: int): Option<BadgeView>
  {
    match HostView(w, c, page.bottomPlacement, j)
    case Ok(host) => Some(BadgeOf(ChooseBadge(w, host)))
    case Err(_) => None
  }

  /** No position in from .. count-1 of the element's children holds `e`. */
  predicate Untouched(element: Option<TabbedPage>, e: Element, from: nat, count: nat)
  {
    element.None? || forall j | from <= j < count && j < |element.value.children| :: element.value.children[j] != e
  }

  /** Position `j` holds the last occurrence of its tab before `count`. */
  predicate LastAt(children: seq<Element>, j: nat, count: nat)
    requires j < |children|
  {
    forall i | j < i < count && i < |children| :: children[i] != children[j]
  }

  /** Every tab at a position from .. count-1 (the last, if it occurs
      twice) maps in `r` to the badge chosen for its host under `r`'s
      cached containers. */
  ghost predicate BadgesChosen(r: Renderer, w: Widgets, page: TabbedPage, from: nat, count: nat)
  {
    forall j | from <= j < count && j < |page.children| && LastAt(page.children, j, count) ::
      page.children[j] in r.badgeViews && ChosenBadge(w, r.cache, page, j) == Some(r.badgeViews[page.children[j]])
  }

  /** One attach that completed: the tab gets the badge chosen for its host
      and every other entry is kept. */
  lemma AttachOneBadge(s: Renderer, w: Widgets, element: Option<TabbedPage>, from: nat)
    requires AddTabBadge(s, w, element, from).outcome == Done
    ensures var first := AddTabBadge(s, w, element, from).state;
      && element.Some? && from < |element.value.children|
      && first.cache == s.cache
      && element.value.children[from] in first.badgeViews
      && ChosenBadge(w, s.cache, element.value, from) == Some(first.badgeViews[element.value.children[from]])
      && (forall e | e in s.badgeViews && e != element.value.children[from] ::
            e in first.badgeViews && first.badgeViews[e] == s.badgeViews[e])
  {
  }

  /** `r` keeps the entry of every tab of `s` that no position
      from .. count-1 holds. */
  ghost predicate KeepsUntouched(s: Renderer, r: Renderer, element: Option<TabbedPage>, from: nat, count: nat)
  {
    forall e | e in s.badgeViews && Untouched(element, e, from, count) ::
      e in r.badgeViews && r.badgeViews[e] == s.badgeViews[e]
  }

  /** Entries kept by one attach and then by the rest of the loop are
      kept by the whole loop. */
  lemma KeptThroughLoop(s: Renderer, first: Renderer, r: Renderer, element: Option<TabbedPage>, from: nat, count: nat)
    requires element.Some? && from < count && from < |element.value.children|
    requires forall e | e in s.badgeViews && e != element.value.children[from] ::
      e in first.badgeViews && first.badgeViews[e] == s.badgeViews[e]
    requires KeepsUntouched(first, r, element, from + 1, count)
    ensures KeepsUntouched(s, r, element, from, count)
  {
    forall e | e in s.badgeViews && Untouched(element, e, from, count)
      ensures e in r.badgeViews && r.badgeViews[e] == s.badgeViews[e]
    {
      assert element.value.children[from] != e;
      assert Untouched(element, e, from + 1, count);
    }
  }

  /** What AttachTabs from `from` to `count` does to the registry: it
      keeps the entry of every tab of `s` that no visited position holds,
      and when it completes, every visited tab has the badge chosen for its
      host. */
  ghost predicate AttachedBadges(s: Renderer, w: Widgets, element: Option<TabbedPage>, from: nat, count: nat)
    requires from <= count
  {
    var r := AttachTabs(s, w, element, from, count);
    && KeepsUntouched(s, r.state, element, from, count)
    && (r.outcome == Done && element.Some? ==> BadgesChosen(r.state, w, element.value, from, count))
  }

  /** One step of the induction of AttachTabsBadges: what the rest of the
      loop keeps and chooses, the whole loop keeps and chooses. */
  lemma AttachStepBadges(s: Renderer, w: Widgets, element: Option<TabbedPage>, from: nat, count: nat)
    requires from < count
    requires AttachedBadges(AddTabBadge(s, w, element, from).state, w, element, from + 1, count)
    ensures AttachedBadges(s, w, element, from, count)
  {
    var first := AddTabBadge(s, w, element, from);
    if !first.outcome.Threw? {
      var rest := AttachTabs(first.state, w, element, from + 1, count);
      LaterAttach(s, w, element, from, count);
      AttachOneBadge(s, w, element, from);
      KeptThroughLoop(s, first.state, rest.state, element, from, count);
      if rest.outcome == Done {
        var children := element.value.children;
        forall j | from <= j < count && j < |children| && LastAt(children, j, count)
          ensures children[j] in rest.state.badgeViews
            && ChosenBadge(w, rest.state.cache, element.value, j) == Some(rest.state.badgeViews[children[j]])
        {
          if j == from {
            assert Untouched(element, children[from], from + 1, count);
          }
        }
      }
    }
  }

  /** An empty attach loop keeps every entry and chooses nothing. */
  lemma NoAttachBadges(s: Renderer, w: Widgets, element: Option<TabbedPage>, from: nat)
    ensures AttachedBadges(s, w, element, from, from)
  {
  }

  /** The attach loop gives every tab it visits the badge AddTabBadge
      chose for that tab's host, and keeps the entry of every tab it does
      not visit, whether or not it raises. */
  lemma {:induction false} AttachTabsBadges(s: Renderer, w: Widgets, element: Option<TabbedPage>, from: nat, count: nat)
    requires from <= count
    decreases count - from
    ensures AttachedBadges(s, w, element, from, count)
  {
    if from == count {
      NoAttachBadges(s, w, element, from);
    } else {
      AttachTabsBadges(AddTabBadge(s, w, element, from).state, w, element, from + 1, count);
      AttachStepBadges(s, w, element, from, count);
    }
  }

  /** The tab at which a raising attach loop stopped. */
  lemma {:induction false} StopIndex(s: Renderer, w: Widgets, element: Option<TabbedPage>, from: nat, count: nat)
      returns (k: nat)
    requires from <= count
    decreases count - from
    ensures AttachTabs(s, w, element, from, count).outcome.Threw? ==>
      from <= k < count && StoppedAt(s, AttachTabs(s, w, element, from, count), w, element, from, k)
  {
    k := from;
    if from < count {
      var first := AddTabBadge(s, w, element, from);
      if first.outcome.Threw? {
        FirstAttachRaised(s, w, element, from, count);
      } else {
        LaterAttach(s, w, element, from, count);
        var later := StopIndex(first.state, w, element, from + 1, count);
        if AttachTabs(first.state, w, element, from + 1, count).outcome.Threw? {
          LaterAttach(s, w, element, from, later);
          k := later;
        }
      }
    }
  }

  /** The attach loop stops at the first exception: when it raises, it
      raised at some tab `k`, the loop over the tabs before `k` completed in
      the state it left, and attaching tab `k` raised that exception. */
  lemma AttachTabsStops(s: Renderer, w: Widgets, element: Option<TabbedPage>, from: nat, count: nat)
    requires from <= count
    ensures var r := AttachTabs(s, w, element, from, count);
      r.outcome.Threw? ==> exists k: nat | from <= k < count :: StoppedAt(s, r, w, element, from, k)
  {
    var k := StopIndex(s, w, element, from, count);
  }

  /** How many tabs OnElementChanged attaches: the menu size of the bottom
      navigation view or the tab count of the tab layout; none when that
      container cannot be found. */
  function TabsToAttach(w: Widgets, element: Option<TabbedPage>): Option<nat>
  {
    if IsBottomTabPlacement(element) then
      if w.bottomNavigationView.None? then None else Some(w.menuSize(w.bottomNavigationView.value))
    else
      if w.tabLayout.None? then None else Some(w.tabCount(w.tabLayout.value))
  }

  /** Once the attach loop has finished without raising, subscribe
      OnTabAdded and OnTabRemoved to the element's child notifications;
      with no element, that access raises. Only the element's own
      notifications change. */
  function SubscribeChildEvents(attached: Step, element: Option<TabbedPage>): (r: Step)
    ensures r.state.badgeViews == attached.state.badgeViews
    ensures r.state.propertyChanged == attached.state.propertyChanged
    ensures r.state.cache == attached.state.cache
    ensures attached.outcome.Threw? ==> r == attached
    ensures !attached.outcome.Threw? && element.None? ==> r.outcome == Threw(NullReference)
    ensures r.outcome == Done <==> !attached.outcome.Threw? && element.Some?
    ensures r.outcome == Done ==>
      && r.state.childAdded[element.value.id] == attached.state.childAdded[element.value.id] + 1
      && r.state.childRemoved[element.value.id] == attached.state.childRemoved[element.value.id] + 1
    ensures forall id | element.None? || id != element.value.id ::
      r.state.childAdded[id] == attached.state.childAdded[id] && r.state.childRemoved[id] == attached.state.childRemoved[id]
  {
    if attached.outcome.Threw? then attached
    else if element.None? then Step(attached.state, Threw(NullReference))
    else
      var s := attached.state;
      Step(s.(childAdded := Subscribe(s.childAdded, element.value.id),
              childRemoved := Subscribe(s.childRemoved, element.value.id)), Done)
  }

  /** The attach loop over `count` tabs followed by the subscription to the
      element's child notifications, starting from the cleaned-up state. */
  function AttachAndSubscribe(found: Renderer, w: Widgets, element: Option<TabbedPage>, count: nat): (r: Step)
    ensures r.outcome != NotFound
    ensures element.None? ==> r.outcome == Threw(NullReference)
    ensures r.state.cache == found.cache
    ensures element.Some? ==>
      forall e | e in r.state.badgeViews :: e in found.badgeViews || e in element.value.children
    ensures r.outcome == Done ==>
      && element.Some?
      && count <= |element.value.children|
      && r.state.badgeViews.Keys == found.badgeViews.Keys + TabsBetween(element.value.children, 0, count)
    ensures r.outcome == Done ==>
      && r.state.childAdded[element.value.id] == found.childAdded[element.value.id] + 1
      && r.state.childRemoved[element.value.id] == found.childRemoved[element.value.id] + 1
    ensures r.outcome != Done ==>
      r.state.childAdded == found.childAdded && r.state.childRemoved == found.childRemoved
    ensures forall id | element.None? || id != element.value.id ::
      r.state.childAdded[id] == found.childAdded[id] && r.state.childRemoved[id] == found.childRemoved[id]
    ensures forall e | r.state.propertyChanged[e] != found.propertyChanged[e] :: e in r.state.badgeViews
    ensures Valid(found) && (element.Some? ==>
      element.value.id !in found.childAdded && element.value.id !in found.childRemoved) ==>
      Valid(r.state)
  {
    SubscribeChildEvents(AttachTabs(found, w, element, 0, count), element)
  }

  /** The part of OnElementChanged after the two cleanups: find the
      container of the current placement, attach every tab and subscribe
      to the element's child notifications. */
  function LocateAndAttach(cleaned: Renderer, w: Widgets, element: Option<TabbedPage>): (r: Step)
    ensures element.Some? && cleaned.badgeViews == map[] ==>
      forall e | e in r.state.badgeViews :: e in element.value.children
    ensures r.outcome == NotFound <==> TabsToAttach(w, element).None?
    ensures element.None? && TabsToAttach(w, element).Some? ==> r.outcome == Threw(NullReference)
    ensures r.outcome == NotFound ==>
      r.state.badgeViews == cleaned.badgeViews
      && r.state.childAdded == cleaned.childAdded && r.state.childRemoved == cleaned.childRemoved
    ensures r.outcome == Done ==>
      && element.Some?
      && TabsToAttach(w, element).Some?
      && TabsToAttach(w, element).value <= |element.value.children|
      && r.state.badgeViews.Keys
         == cleaned.badgeViews.Keys + TabsBetween(element.value.children, 0, TabsToAttach(w, element).value)
    ensures r.outcome == Done ==>
      && r.state.childAdded[element.value.id] == cleaned.childAdded[element.value.id] + 1
      && r.state.childRemoved[element.value.id] == cleaned.childRemoved[element.value.id] + 1
    ensures r.outcome != Done ==>
      r.state.childAdded == cleaned.childAdded && r.state.childRemoved == cleaned.childRemoved
    ensures forall id | element.None? || id != element.value.id ::
      r.state.childAdded[id] == cleaned.childAdded[id] && r.state.childRemoved[id] == cleaned.childRemoved[id]
    ensures forall e | r.state.propertyChanged[e] != cleaned.propertyChanged[e] :: e in r.state.badgeViews
    ensures Valid(cleaned) && (element.Some? ==>
      element.value.id !in cleaned.childAdded && element.value.id !in cleaned.childRemoved) ==>
      Valid(r.state)
    ensures IsBottomTabPlacement(element) ==>
      r.state.cache == cleaned.cache.(bottomNav := w.bottomNavigationView)
    ensures !IsBottomTabPlacement(element) ==>
      r.state.cache.tabLayout == w.tabLayout && r.state.cache.bottomNav == cleaned.cache.bottomNav
    ensures !IsBottomTabPlacement(element) ==>
      r.state.cache.tabStrip
      == if w.tabLayout.Some? then w.linearLayoutIn(w.tabLayout.value) else cleaned.cache.tabStrip
  {
    if IsBottomTabPlacement(element) then
      var found := cleaned.(cache := cleaned.cache.(bottomNav := w.bottomNavigationView));
      if w.bottomNavigationView.None? then Step(found, NotFound)
      else AttachAndSubscribe(found, w, element, w.menuSize(w.bottomNavigationView.value))
    else
      var found := cleaned.(cache := cleaned.cache.(tabLayout := w.tabLayout));
      if w.tabLayout.None? then Step(found, NotFound)
      else
        var withStrip := found.(cache := found.cache.(tabStrip := w.linearLayoutIn(w.tabLayout.value)));
        AttachAndSubscribe(withStrip, w, element, w.tabCount(w.tabLayout.value))
  }

  /** What the two cleanups at the start of OnElementChanged establish:
      neither the old nor the new element keeps a child subscription, and
      none of their tabs keeps a property subscription. */
  lemma CleanupsBeforeBind(s: Renderer, oldElement: Option<TabbedPage>, element: Option<TabbedPage>)
    ensures var cleaned := Cleanup(Cleanup(s, oldElement), element);
      && (Valid(s) ==> Valid(cleaned))
      && (element.Some? ==> cleaned.badgeViews == map[])
      && (element.Some? && Valid(s) ==>
            element.value.id !in cleaned.childAdded && element.value.id !in cleaned.childRemoved)
      && (oldElement.Some? && Valid(s) ==>
            oldElement.value.id !in cleaned.childAdded && oldElement.value.id !in cleaned.childRemoved)
      && (oldElement.Some? && Valid(s) ==>
            forall e | e in oldElement.value.children :: e !in cleaned.propertyChanged)
      && (element.Some? && Valid(s) ==>
            forall e | e in element.value.children :: e !in cleaned.propertyChanged)
  {
  }

  /** OnElementChanged: clean up after the old and the new element, then
      attach the current element's tabs. */
  function OnElementChanged(s: Renderer, w: Widgets, oldElement: Option<TabbedPage>, element: Option<TabbedPage>): (r: Step)
    ensures Valid(s) ==> Valid(r.state)
    ensures element.Some? ==> forall e | e in r.state.badgeViews :: e in element.value.children
    ensures r.outcome == NotFound <==> TabsToAttach(w, element).None?
    ensures element.None? && TabsToAttach(w, element).Some? ==> r.outcome == Threw(NullReference)
    ensures r.outcome == NotFound && element.Some? ==> r.state.badgeViews == map[]
    ensures r.outcome == Done ==>
      && element.Some?
      && TabsToAttach(w, element).Some?
      && TabsToAttach(w, element).value <= |element.value.children|
      && r.state.badgeViews.Keys == TabsBetween(element.value.children, 0, TabsToAttach(w, element).value)
    ensures r.outcome == Done && Valid(s) ==>
      r.state.childAdded[element.value.id] == 1 && r.state.childRemoved[element.value.id] == 1
    ensures r.outcome != Done && element.Some? && Valid(s) ==>
      element.value.id !in r.state.childAdded && element.value.id !in r.state.childRemoved
    ensures oldElement.Some? && Valid(s) && (element.None? || element.value.id != oldElement.value.id) ==>
      oldElement.value.id !in r.state.childAdded && oldElement.value.id !in r.state.childRemoved
    ensures oldElement.Some? && Valid(s) ==>
      forall e | e in oldElement.value.children && e !in r.state.badgeViews :: e !in r.state.propertyChanged
  {
    var cleaned := Cleanup(Cleanup(s, oldElement), element);
    CleanupsBeforeBind(s, oldElement, element);
    LocateAndAttach(cleaned, w, element)
  }

  /** The containers OnElementChanged caches: in bottom-bar mode the bottom
      navigation view found (or null) and no tab layout or strip; in
      top-strip mode the tab layout found and its strip, while a stale
      bottom navigation view is kept. */
  lemma ElementChangedCaches(s: Renderer, w: Widgets, oldElement: Option<TabbedPage>, element: Option<TabbedPage>)
    ensures var c := OnElementChanged(s, w, oldElement, element).state.cache;
      && (IsBottomTabPlacement(element) ==> c == Containers(None, None, w.bottomNavigationView))
      && (!IsBottomTabPlacement(element) ==> c.tabLayout == w.tabLayout && c.bottomNav == s.cache.bottomNav)
      && (!IsBottomTabPlacement(element) && w.tabLayout.Some? ==> c.tabStrip == w.linearLayoutIn(w.tabLayout.value))
      && (!IsBottomTabPlacement(element) && w.tabLayout.None? && element.Some? ==> c.tabStrip == None)
  {
  }

  /** A completed loop-and-subscribe leaves each of the first `count` tabs
      with the badge chosen for its host. */
  lemma AttachAndSubscribeBadges(found: Renderer, w: Widgets, element: Option<TabbedPage>, count: nat)
    ensures var r := AttachAndSubscribe(found, w, element, count);
      r.outcome == Done ==> element.Some? && BadgesChosen(r.state, w, element.value, 0, count)
  {
    AttachTabsBadges(found, w, element, 0, count);
  }

  /** A completed bind after cleanup leaves each tab it attached with the
      badge chosen for its host under the containers it cached. */
  lemma LocateAndAttachBadges(cleaned: Renderer, w: Widgets, element: Option<TabbedPage>)
    ensures var r := LocateAndAttach(cleaned, w, element);
      r.outcome == Done ==>
        element.Some? && TabsToAttach(w, element).Some?
        && BadgesChosen(r.state, w, element.value, 0, TabsToAttach(w, element).value)
  {
    if IsBottomTabPlacement(element) {
      if w.bottomNavigationView.Some? {
        var found := cleaned.(cache := cleaned.cache.(bottomNav := w.bottomNavigationView));
        AttachAndSubscribeBadges(found, w, element, w.menuSize(w.bottomNavigationView.value));
      }
    } else if w.tabLayout.Some? {
      var found := cleaned.(cache := cleaned.cache.(tabLayout := w.tabLayout));
      var withStrip := found.(cache := found.cache.(tabStrip := w.linearLayoutIn(w.tabLayout.value)));
      AttachAndSubscribeBadges(withStrip, w, element, w.tabCount(w.tabLayout.value));
    }
  }

  /** After a completed bind, every tab the loop attached maps to the badge
      AddTabBadge chose for its host: the badge already in the host, or a
      new one on the host's icon with a drawable, or else on its label. */
  lemma BindBadges(s: Renderer, w: Widgets, oldElement: Option<TabbedPage>, element: Option<TabbedPage>)
    ensures var r := OnElementChanged(s, w, oldElement, element);
      r.outcome == Done ==>
        element.Some? && TabsToAttach(w, element).Some?
        && BadgesChosen(r.state, w, element.value, 0, TabsToAttach(w, element).value)
  {
    LocateAndAttachBadges(Cleanup(Cleanup(s, oldElement), element), w, element);
  }

  /** OnTabAdded, as written: once the delay has elapsed, a page child is
      attached at whatever IndexOf reports, even -1. */
  function OnTabAdded(s: Renderer, w: Widgets, element: Option<TabbedPage>, child: Element): (r: Step)
    ensures child.Other? ==> r == Step(s, Done)
    ensures child.Page? && element.None? ==> r == Step(s, Threw(NullReference))
    ensures child.Page? && element.Some? && child !in element.value.children ==>
      r == Step(s, Threw(ArgumentOutOfRange))
    ensures r.outcome != NotFound
    ensures r.outcome.Threw? ==> r.state == s
    ensures child.Page? && element.Some? && child in element.value.children ==>
      var host := HostView(w, s.cache, element.value.bottomPlacement, IndexOf(element.value.children, child));
      && (r.outcome.Threw? <==> host.Err?)
      && (r.outcome == Done ==> Attached(s, r.state, child, BadgeOf(ChooseBadge(w, host.value))))
    ensures Valid(s) ==> Valid(r.state)
  {
    if child.Other? then Step(s, Done)
    else if element.None? then Step(s, Threw(NullReference))
    else AddTabBadge(s, w, element, IndexOf(element.value.children, child))
  }

  /** OnTabAdded with the guard it lacks: a continuation whose page is no
      longer a tab of the current element does nothing. */
  function OnTabAddedGuarded(s: Renderer, w: Widgets, element: Option<TabbedPage>, child: Element): (r: Step)
    ensures r.outcome != Threw(ArgumentOutOfRange) && r.outcome != NotFound
    ensures !(child.Page? && element.Some? && child in element.value.children) ==> r == Step(s, Done)
    ensures child.Page? && element.Some? && child in element.value.children ==>
      r == OnTabAdded(s, w, element, child)
    ensures r.outcome.Threw? ==> r.state == s
    ensures r.outcome == Done && child.Page? && element.Some? && child in element.value.children ==>
      var host := HostView(w, s.cache, element.value.bottomPlacement, IndexOf(element.value.children, child));
      host.Ok? && Attached(s, r.state, child, BadgeOf(ChooseBadge(w, host.value)))
    ensures Valid(s) ==> Valid(r.state)
  {
    if child.Page? && element.Some? && child in element.value.children then
      AddTabBadge(s, w, element, IndexOf(element.value.children, child))
    else Step(s, Done)
  }

  /** A page removed before the delay elapsed makes the continuation index
      Children with -1. */
  lemma TabRemovedDuringDelay(s: Renderer, w: Widgets, page: TabbedPage, child: Element)
    requires child.Page? && child !in page.children
    ensures IndexOf(page.children, child) == -1
    ensures OnTabAdded(s, w, Some(page), child).outcome == Threw(ArgumentOutOfRange)
    ensures OnTabAddedGuarded(s, w, Some(page), child) == Step(s, Done)
  {
  }

  /** On an unchanged view tree, attaching the same tab twice leaves the
      registry and the subscriptions as one attach does. The registry half
      holds only because a badge is identified here by the anchor it wraps;
      in the code the second call would construct a second BadgeView
      object. What keeps the code from doing so is the reuse path, which
      SecondAttachReusesBadge states. */
  lemma AddTabBadgeIdempotent(s: Renderer, w: Widgets, element: Option<TabbedPage>, tabIndex: int)
    ensures AddTabBadge(AddTabBadge(s, w, element, tabIndex).state, w, element, tabIndex)
         == AddTabBadge(s, w, element, tabIndex)
  {
    var first := AddTabBadge(s, w, element, tabIndex);
    if first.outcome == Done {
      var tab := element.value.children[tabIndex];
      var m := first.state.propertyChanged;
      assert Subscribe(Unsubscribe(m, tab), tab) == m;
    }
  }

  /** The path that keeps the real code from building a second overlay:
      when the view tree now reports the badge the first attach registered
      (as it does once that badge is in the host), the second attach reuses
      it and changes nothing. */
  lemma SecondAttachReusesBadge(s: Renderer, w: Widgets, later: Widgets, element: Option<TabbedPage>, tabIndex: int)
    requires AddTabBadge(s, w, element, tabIndex).outcome == Done
    requires var first := AddTabBadge(s, w, element, tabIndex).state;
      var host := HostView(later, first.cache, element.value.bottomPlacement, tabIndex);
      host.Ok? && InGroup(later, host.value, later.badgeIn) == Some(first.badgeViews[element.value.children[tabIndex]])
    ensures var first := AddTabBadge(s, w, element, tabIndex).state;
      && ChooseBadge(later, HostView(later, first.cache, element.value.bottomPlacement, tabIndex).value).Reuse?
      && AddTabBadge(first, later, element, tabIndex) == Step(first, Done)
  {
    var first := AddTabBadge(s, w, element, tabIndex).state;
    var tab := element.value.children[tabIndex];
    assert first.badgeViews[tab := first.badgeViews[tab]] == first.badgeViews;
    assert Subscribe(Unsubscribe(first.propertyChanged, tab), tab) == first.propertyChanged;
  }

  /** A property change of a tab just attached reaches the badge that
      attach registered, and no change reaches anything once the tab has
      been removed. */
  lemma PropertyChangeReachesAttachedBadge(s: Renderer, w: Widgets, element: Option<TabbedPage>, tabIndex: int)
    requires AddTabBadge(s, w, element, tabIndex).outcome == Done
    ensures var r := AddTabBadge(s, w, element, tabIndex).state;
      var tab := element.value.children[tabIndex];
      && OnTabbedPagePropertyChanged(r, FromElement(tab)) == Some(r.badgeViews[tab])
      && OnTabbedPagePropertyChanged(OnTabRemoved(r, tab), FromElement(tab)) == None
  {
  }

  /** A host that already holds a badge keeps it: that badge, and no new
      one, is what the registry records for the tab. */
  lemma ExistingBadgeReused(s: Renderer, w: Widgets, page: TabbedPage, tabIndex: int, badge: BadgeView)
    requires 0 <= tabIndex < |page.children|
    requires HostView(w, s.cache, page.bottomPlacement, tabIndex).Ok?
    requires InGroup(w, HostView(w, s.cache, page.bottomPlacement, tabIndex).value, w.badgeIn) == Some(badge)
    ensures AddTabBadge(s, w, Some(page), tabIndex).outcome == Done
    ensures AddTabBadge(s, w, Some(page), tabIndex).state.badgeViews[page.children[tabIndex]] == badge
  {
  }

  /** Cleaning up twice is cleaning up once. */
  lemma CleanupIdempotent(s: Renderer, page: Option<TabbedPage>)
    requires Valid(s)
    ensures Cleanup(Cleanup(s, page), page) == Cleanup(s, page)
  {
    if page.Some? {
      var once := Cleanup(s, page);
      RemovingAbsentIsNoOp(once.propertyChanged, multiset(page.value.children));
      RemovingAbsentIsNoOp(once.childAdded, multiset{page.value.id});
      RemovingAbsentIsNoOp(once.childRemoved, multiset{page.value.id});
    }
  }
}

=== FILE: locator.dfy ===
/** The tab locator of AddTabBadge: which Android view hosts a tab's badge,
    and which badge that tab gets. The Android widgets and the view-tree
    query FindChildOfType are not part of this model; `Widgets` stands for
    their answers at the moment of one event. */
module Locator {
  import opened Base

  /** An Android view, by identity only. */
  datatype View = View(id: nat)

  /** A badge overlay, wrapping the view it was anchored to (null when the
      host had neither an icon nor a label). */
  datatype BadgeView = BadgeView(target: Option<View>)

  /** TabLayout.Tab; only its custom view is read. */
  datatype Tab = Tab(customView: Option<View>)

  /** The answers of the view tree: one total function per widget call or
      FindChildOfType query the renderer makes. */
  datatype Widgets = Widgets(
    bottomNavigationView: Option<View>,  // the renderer's FindChildOfType<BottomNavigationView>()
    tabLayout: Option<View>,             // the renderer's FindChildOfType<TabLayout>()
    linearLayoutIn: View -> Option<View>,// FindChildOfType<LinearLayout>()
    menuSize: View -> nat,               // BottomNavigationView.Menu.Size()
    tabCount: View -> nat,               // TabLayout.TabCount
    tabAt: (View, int) -> Option<Tab>,   // TabLayout.GetTabAt
    childAt: (View, int) -> Option<View>,// ViewGroup.GetChildAt
    isViewGroup: View -> bool,
    badgeIn: View -> Option<BadgeView>,  // FindChildOfType<BadgeView>()
    imageIn: View -> Option<View>,       // FindChildOfType<ImageView>()
    hasDrawable: View -> bool,           // ImageView.Drawable != null
    textIn: View -> Option<View>)        // FindChildOfType<TextView>()

  /** The container views the renderer caches between events. */
  datatype Containers = Containers(tabLayout: Option<View>, tabStrip: Option<View>, bottomNav: Option<View>)

  /** `(view as ViewGroup)?.FindChildOfType<T>()`: a query that yields null
      unless the view is present and is a view group. */
  function InGroup<T>(w: Widgets, view: Option<View>, query: View -> Option<T>): Option<T>
  {
    if view.Some? && w.isViewGroup(view.value) then query(view.value) else None
  }

  /** The view that hosts the badge of tab `tabIndex`. In bottom-bar mode it
      is child `tabIndex` of the bottom navigation view's first child; in
      top-strip mode it is the tab's custom view when it has one, otherwise
      child `tabIndex` of the tab strip. A missing container yields null;
      a failed cast or a missing TabLayout.Tab raises. */
  function HostView(w: Widgets, c: Containers, bottom: bool, tabIndex: int): (r: Result<Option<View>>)
    // bottom-bar mode: child tabIndex of the navigation view's first child
    ensures bottom && c.bottomNav.Some? && w.childAt(c.bottomNav.value, 0).Some?
            && w.isViewGroup(w.childAt(c.bottomNav.value, 0).value) ==>
      r == Ok(w.childAt(w.childAt(c.bottomNav.value, 0).value, tabIndex))
    ensures bottom && (c.bottomNav.None? || w.childAt(c.bottomNav.value, 0).None?) ==> r == Ok(None)
    ensures bottom ==> (r.Err? <==> c.bottomNav.Some? && w.childAt(c.bottomNav.value, 0).Some?
                                    && !w.isViewGroup(w.childAt(c.bottomNav.value, 0).value))
    ensures bottom && r.Err? ==> r.fault == InvalidCast
    // top-strip mode: the custom view, else child tabIndex of the strip
    ensures !bottom ==> (r.Err? <==> c.tabLayout.Some? && w.tabAt(c.tabLayout.value, tabIndex).None?)
    ensures !bottom && r.Err? ==> r.fault == NullReference
    ensures !bottom && c.tabLayout.Some? && w.tabAt(c.tabLayout.value, tabIndex).Some?
            && w.tabAt(c.tabLayout.value, tabIndex).value.customView.Some? ==>
      r == Ok(w.tabAt(c.tabLayout.value, tabIndex).value.customView)
    ensures !bottom && r.Ok? && !(c.tabLayout.Some? && w.tabAt(c.tabLayout.value, tabIndex).Some?
                                  && w.tabAt(c.tabLayout.value, tabIndex).value.customView.Some?) ==>
      r.value == StripChild(w, c, tabIndex)
  {
    if bottom then
      if c.bottomNav.None? then Ok(None)
      else
        match w.childAt(c.bottomNav.value, 0)
        case None => Ok(None)
        case Some(menu) =>
          if w.isViewGroup(menu) then Ok(w.childAt(menu, tabIndex)) else Err(InvalidCast)
    else
      if c.tabLayout.None? then Ok(StripChild(w, c, tabIndex))
      else
        match w.tabAt(c.tabLayout.value, tabIndex)
        case None => Err(NullReference)
        case Some(tab) =>
          if tab.customView.Some? then Ok(tab.customView) else Ok(StripChild(w, c, tabIndex))
  }

  /** `_tabStrip?.GetChildAt(tabIndex)`. */
  function StripChild(w: Widgets, c: Containers, tabIndex: int): Option<View>
  {
    if c.tabStrip.Some? then w.childAt(c.tabStrip.value, tabIndex) else None
  }

  /** The badge decision: reuse a badge already inside the host, or build
      one anchored to the chosen target. */
  datatype Choice = Reuse(badge: BadgeView) | Build(target: Option<View>)

  /** Reuse before build; when building, anchor to the icon if it has a
      drawable, otherwise to the text label. */
  function ChooseBadge(w: Widgets, host: Option<View>): (r: Choice)
    ensures r.Reuse? <==> InGroup(w, host, w.badgeIn).Some?
    ensures r.Reuse? ==> r.badge == InGroup(w, host, w.badgeIn).value
    ensures r.Build? && InGroup(w, host, w.imageIn).Some? && w.hasDrawable(InGroup(w, host, w.imageIn).value) ==>
      r.target == InGroup(w, host, w.imageIn)
    ensures r.Build? && !(InGroup(w, host, w.imageIn).Some? && w.hasDrawable(InGroup(w, host, w.imageIn).value)) ==>
      r.target == InGroup(w, host, w.textIn)
    ensures r.Build? && r.target.Some? ==> host.Some? && w.isViewGroup(host.value)
  {
    var existing := InGroup(w, host, w.badgeIn);
    if existing.Some? then Reuse(existing.value)
    else
      var image := InGroup(w, host, w.imageIn);
      if image.Some? && w.hasDrawable(image.value) then Build(image)
      else Build(InGroup(w, host, w.textIn))
  }

  /** The badge a choice yields: the reused one, or a new one on the anchor. */
  function BadgeOf(choice: Choice): BadgeView
  {
    match choice
    case Reuse(b) => b
    case Build(target) => BadgeView(target)
  }

  /** Bottom-bar mode never consults the tab layout or the tab strip. */
  lemma BottomModeIgnoresTabLayout(w: Widgets, c: Containers, tabIndex: int, layout: Option<View>, strip: Option<View>)
    ensures HostView(w, c, true, tabIndex) == HostView(w, c.(tabLayout := layout, tabStrip := strip), true, tabIndex)
  {
  }

  /** Top-strip mode never consults the bottom navigation view. */
  lemma TopModeIgnoresBottomNav(w: Widgets, c: Containers, tabIndex: int, nav: Option<View>)
    ensures HostView(w, c, false, tabIndex) == HostView(w, c.(bottomNav := nav), false, tabIndex)
  {
  }

  /** A tab's custom view shadows the tab strip entirely. */
  lemma CustomViewShadowsStrip(w: Widgets, c: Containers, tabIndex: int, strip: Option<View>)
    requires c.tabLayout.Some? && w.tabAt(c.tabLayout.value, tabIndex).Some?
    requires w.tabAt(c.tabLayout.value, tabIndex).value.customView.Some?
    ensures HostView(w, c, false, tabIndex) == HostView(w, c.(tabStrip := strip), false, tabIndex)
    ensures HostView(w, c, false, tabIndex).Ok?
  {
  }
}

=== FILE: registry.dfy ===
/** The renderer's own state: the BadgeViews registry, the event
    subscriptions it has made, and the container views it caches.

    A .NET event is a list of delegates: `+=` appends one occurrence of the
    handler and `-=` removes one occurrence if there is any. So the
    subscriptions of one handler are a multiset of event sources. */
module Registry {
  import opened Base
  import opened Forms
  import opened Locator

  datatype Renderer = Renderer(
    badgeViews: map<Element, BadgeView>,  // the BadgeViews dictionary
    propertyChanged: multiset<Element>,   // OnTabbedPagePropertyChanged on each element's PropertyChanged
    childAdded: multiset<nat>,            // OnTabAdded on each tabbed page's ChildAdded, by page id
    childRemoved: multiset<nat>,          // OnTabRemoved on each tabbed page's ChildRemoved, by page id
    cache: Containers)                    // _tabLayout, _tabStrip, _bottomNavigationView

  /** A freshly constructed renderer. */
  const Initial := Renderer(map[], multiset{}, multiset{}, multiset{}, Containers(None, None, None))

  /** `source.Event += handler`. */
  function Subscribe<T(!new)>(m: multiset<T>, source: T): (r: multiset<T>)
    ensures r[source] == m[source] + 1
    ensures forall x | x != source :: r[x] == m[x]
  {
    m + multiset{source}
  }

  /** `source.Event -= handler`: removes one occurrence, a no-op if none. */
  function Unsubscribe<T(!new)>(m: multiset<T>, source: T): (r: multiset<T>)
    ensures r[source] == if m[source] == 0 then 0 else m[source] - 1
    ensures forall x | x != source :: r[x] == m[x]
  {
    m - multiset{source}
  }

  /** `foreach (var s in sources) s.Event -= handler`. */
  function UnsubscribeEach<T(!new)>(m: multiset<T>, sources: seq<T>): (r: multiset<T>)
    ensures r == m - multiset(sources)
  {
    if |sources| == 0 then m
    else
      assert sources == [sources[0]] + sources[1..];
      UnsubscribeEach(Unsubscribe(m, sources[0]), sources[1..])
  }

  /** `-=` undoes `+=`, and under at most one subscription `+=` undoes
      `-=`: the unsubscribe-then-subscribe idiom leaves a subscribed source
      as it was. */
  lemma SubscribeUnsubscribeInverse<T(!new)>(m: multiset<T>, source: T)
    ensures Unsubscribe(Subscribe(m, source), source) == m
    ensures source in m ==> Subscribe(Unsubscribe(m, source), source) == m
  {
  }

  /** No event source carries the handler more than once. */
  predicate AtMostOnce<T>(m: multiset<T>)
  {
    forall x | x in m :: m[x] == 1
  }

  /** Removing occurrences never creates a duplicate, and from a multiset
      without duplicates it removes every source it names. */
  lemma RemovalKeepsAtMostOnce<T>(m: multiset<T>, n: multiset<T>)
    ensures AtMostOnce(m) ==> AtMostOnce(m - n)
    ensures AtMostOnce(m) ==> forall x | x in n :: x !in m - n
  {
  }

  /** Removing sources that carry no subscription changes nothing. */
  lemma RemovingAbsentIsNoOp<T>(m: multiset<T>, n: multiset<T>)
    requires forall x | x in n :: x !in m
    ensures m - n == m
  {
    assert forall x :: (m - n)[x] == m[x] by {
      forall x ensures (m - n)[x] == m[x] {
        if x in n { assert x !in m; }
      }
    }
  }

  /** The invariant the renderer keeps across every event: no duplicate
      subscriptions, and every registered tab is subscribed. */
  predicate Valid(s: Renderer)
  {
    && AtMostOnce(s.propertyChanged)
    && AtMostOnce(s.childAdded)
    && AtMostOnce(s.childRemoved)
    && forall e | e in s.badgeViews :: e in s.propertyChanged
  }

  lemma InitialIsValid()
    ensures Valid(Initial)
    ensures Initial.badgeViews == map[]
  {
  }
}

=== FILE: sessions.dfy ===
/** Sessions: any interleaving of the renderer's events, each handled to
    completion on the UI thread. The deferred part of OnTabAdded is its own
    event, which may arrive after any other. Events arrive whether or not
    the renderer is subscribed to them, which covers every real order. */
module Sessions {
  import opened Base
  import opened Forms
  import opened Locator
  import opened Registry
  import opened Lifecycle

  datatype Event =
    | ElementChanged(w: Widgets, oldElement: Option<TabbedPage>, element: Option<TabbedPage>)
    | TabAddedAfterDelay(w: Widgets, element: Option<TabbedPage>, child: Element)
    | TabRemoved(child: Element)
    | PropertyChanged(sender: Sender)
    | Disposed(element: Option<TabbedPage>)

  /** The state after one event; an exception leaves the effects made
      before it. The deferred add is the guarded one. */
  function Apply(s: Renderer, e: Event): (r: Renderer)
    ensures Valid(s) ==> Valid(r)
  {
    match e
    case ElementChanged(w, oldElement, element) => OnElementChanged(s, w, oldElement, element).state
    case TabAddedAfterDelay(w, element, child) => OnTabAddedGuarded(s, w, element, child).state
    case TabRemoved(child) => OnTabRemoved(s, child)
    case PropertyChanged(_) => s
    case Disposed(element) => Dispose(s, element)
  }

  function Run(s: Renderer, events: seq<Event>): Renderer
    decreases |events|
  {
    if |events| == 0 then s else Run(Apply(s, events[0]), events[1..])
  }

  /** Over any sequence of events: no element ever carries the property
      handler twice, no tabbed page carries a child handler twice, and
      every registered tab has exactly one live subscription. */
  lemma {:induction false} RunKeepsValid(s: Renderer, events: seq<Event>)
    requires Valid(s)
    decreases |events|
    ensures Valid(Run(s, events))
    ensures forall e | e in Run(s, events).badgeViews :: Run(s, events).propertyChanged[e] == 1
  {
    if |events| > 0 {
      RunKeepsValid(Apply(s, events[0]), events[1..]);
    }
  }

  /** Whatever happened before, disposing of the current element leaves the
      registry empty and none of its tabs subscribed. */
  lemma TeardownAfterAnyRun(events: seq<Event>, element: TabbedPage)
    ensures var r := Dispose(Run(Initial, events), Some(element));
      && r.badgeViews == map[]
      && (forall e | e in element.children :: e !in r.propertyChanged)
      && element.id !in r.childAdded && element.id !in r.childRemoved
  {
    InitialIsValid();
    RunKeepsValid(Initial, events);
  }

  /** A top-strip view tree with `tabs` tabs and no custom views: tab
      layout View(1), strip View(2), tab i hosted by View(10 + i), whose
      icon has no drawable and whose label is View(20 + i). */
  function TopStripTree(tabs: nat): Widgets
  {
    Widgets(
      bottomNavigationView := None,
      tabLayout := Some(View(1)),
      linearLayoutIn := v => Some(View(2)),
      menuSize := v => 0,
      tabCount := v => tabs,
      tabAt := (v, i) => if 0 <= i < tabs then Some(Tab(None)) else None,
      childAt := (v, i) => if v == View(2) && 0 <= i < tabs then Some(View(10 + i)) else None,
      isViewGroup := v => true,
      badgeIn := v => None,
      imageIn := (v: View) => Some(View(v.id + 100)),
      hasDrawable := v => false,
      textIn := (v: View) => Some(View(v.id + 10)))
  }

  const TabA := Page(1)
  const TabB := Page(2)
  const TabC := Page(3)
  const TabD := Page(4)

  /** The renderer after binding to three tabs in top-strip mode. */
  const ThreeBound := Renderer(
    map[TabA := BadgeView(Some(View(20))), TabB := BadgeView(Some(View(21))), TabC := BadgeView(Some(View(22)))],
    multiset{TabA, TabB, TabC}, multiset{0}, multiset{0},
    Containers(Some(View(1)), Some(View(2)), None))

  /** In the top-strip tree, tab i is hosted by View(10 + i) and gets a
      new badge on its label View(20 + i). */
  lemma TopStripTab(s: Renderer, tabs: nat, children: seq<Element>, i: nat)
    requires i < tabs && i < |children|
    requires s.cache == Containers(Some(View(1)), Some(View(2)), None)
    ensures AddTabBadge(s, TopStripTree(tabs), Some(TabbedPage(0, children, false)), i)
         == Step(s.(badgeViews := s.badgeViews[children[i] := BadgeView(Some(View(20 + i)))],
                    propertyChanged := Subscribe(Unsubscribe(s.propertyChanged, children[i]), children[i])), Done)
  {
    var w := TopStripTree(tabs);
    assert HostView(w, s.cache, false, i) == Ok(Some(View(10 + i)));
    assert ChooseBadge(w, Some(View(10 + i))) == Build(Some(View(20 + i)));
  }

  const StripCache := Containers(Some(View(1)), Some(View(2)), None)
  const ThreeTabs := Some(TabbedPage(0, [TabA, TabB, TabC], false))

  /** The states of the attach loop over tabs A, B, C, before the page's
      child notifications are subscribed. */
  const NoneAttached := Initial.(cache := StripCache)
  const OneAttached := NoneAttached.(badgeViews := map[TabA := BadgeView(Some(View(20)))],
                                     propertyChanged := multiset{TabA})
  const TwoAttached := NoneAttached.(badgeViews := map[TabA := BadgeView(Some(View(20))), TabB := BadgeView(Some(View(21)))],
                                     propertyChanged := multiset{TabA, TabB})
  const ThreeAttached := ThreeBound.(childAdded := multiset{}, childRemoved := multiset{})

  lemma AttachThird()
    ensures AttachTabs(TwoAttached, TopStripTree(3), ThreeTabs, 2, 3) == Step(ThreeAttached, Done)
  {
    TopStripTab(TwoAttached, 3, [TabA, TabB, TabC], 2);
    assert Subscribe(Unsubscribe(TwoAttached.propertyChanged, TabC), TabC) == ThreeAttached.propertyChanged;
    assert AddTabBadge(TwoAttached, TopStripTree(3), ThreeTabs, 2) == Step(ThreeAttached, Done);
  }

  lemma AttachSecond()
    ensures AttachTabs(OneAttached, TopStripTree(3), ThreeTabs, 1, 3) == Step(ThreeAttached, Done)
  {
    TopStripTab(OneAttached, 3, [TabA, TabB, TabC], 1);
    assert Subscribe(Unsubscribe(OneAttached.propertyChanged, TabB), TabB) == TwoAttached.propertyChanged;
    assert AddTabBadge(OneAttached, TopStripTree(3), ThreeTabs, 1) == Step(TwoAttached, Done);
    AttachThird();
  }

  lemma AttachFirst()
    ensures AttachTabs(NoneAttached, TopStripTree(3), ThreeTabs, 0, 3) == Step(ThreeAttached, Done)
  {
    TopStripTab(NoneAttached, 3, [TabA, TabB, TabC], 0);
    assert Subscribe(Unsubscribe(NoneAttached.propertyChanged, TabA), TabA) == OneAttached.propertyChanged;
    assert AddTabBadge(NoneAttached, TopStripTree(3), ThreeTabs, 0) == Step(OneAttached, Done);
    AttachSecond();
  }

  /** Three tabs in top-strip mode each get a badge on their own label,
      one subscription each, and the page's child notifications once. */
  lemma BindThreeTabs()
    ensures OnElementChanged(Initial, TopStripTree(3), None, Some(TabbedPage(0, [TabA, TabB, TabC], false)))
         == Step(ThreeBound, Done)
  {
    var w := TopStripTree(3);
    var page := Some(TabbedPage(0, [TabA, TabB, TabC], false));
    assert Cleanup(Cleanup(Initial, None), page) == Initial;
    assert LocateAndAttach(Initial, w, page) == AttachAndSubscribe(NoneAttached, w, page, 3);
    AttachFirst();
    assert Subscribe(ThreeAttached.childAdded, 0) == multiset{0};
    assert SubscribeChildEvents(Step(ThreeAttached, Done), page) == Step(ThreeBound, Done);
  }

  /** A fourth tab, attached after the delay, gets exactly one new badge
      and every other entry is kept. */
  lemma AddFourthTab()
    ensures OnTabAddedGuarded(ThreeBound, TopStripTree(4), Some(TabbedPage(0, [TabA, TabB, TabC, TabD], false)), TabD)
         == Step(ThreeBound.(badgeViews := ThreeBound.badgeViews[TabD := BadgeView(Some(View(23)))],
                             propertyChanged := multiset{TabA, TabB, TabC, TabD}), Done)
  {
    var page := Some(TabbedPage(0, [TabA, TabB, TabC, TabD], false));
    assert IndexOf([TabA, TabB, TabC, TabD], TabD) == 3;
    assert OnTabAddedGuarded(ThreeBound, TopStripTree(4), page, TabD) == AddTabBadge(ThreeBound, TopStripTree(4), page, 3);
    TopStripTab(ThreeBound, 4, [TabA, TabB, TabC, TabD], 3);
    assert Subscribe(Unsubscribe(ThreeBound.propertyChanged, TabD), TabD) == multiset{TabA, TabB, TabC, TabD};
  }

  /** Removing the second tab destroys its badge and subscription only. */
  lemma RemoveSecondTab()
    ensures var four := ThreeBound.(badgeViews := ThreeBound.badgeViews[TabD := BadgeView(Some(View(23)))],
                                    propertyChanged := multiset{TabA, TabB, TabC, TabD});
      OnTabRemoved(four, TabB)
      == four.(badgeViews := map[TabA := BadgeView(Some(View(20))), TabC := BadgeView(Some(View(22))),
                                 TabD := BadgeView(Some(View(23)))],
               propertyChanged := multiset{TabA, TabC, TabD})
  {
    var four := ThreeBound.(badgeViews := ThreeBound.badgeViews[TabD := BadgeView(Some(View(23)))],
                            propertyChanged := multiset{TabA, TabB, TabC, TabD});
    assert Unsubscribe(four.propertyChanged, TabB) == multiset{TabA, TabC, TabD};
    assert four.badgeViews - {TabB}
        == map[TabA := BadgeView(Some(View(20))), TabC := BadgeView(Some(View(22))), TabD := BadgeView(Some(View(23)))];
  }

  /** A fourth page added and removed again before the delay elapses:
      the continuation as written raises from Children[-1]; the guarded
      one leaves the state alone. */
  lemma AddedThenRemovedBeforeDelay()
    ensures var removed := OnTabRemoved(ThreeBound, TabD);
      && OnTabAdded(removed, TopStripTree(3), ThreeTabs, TabD) == Step(removed, Threw(ArgumentOutOfRange))
      && OnTabAddedGuarded(removed, TopStripTree(3), ThreeTabs, TabD) == Step(removed, Done)
  {
    TabRemovedDuringDelay(OnTabRemoved(ThreeBound, TabD), TopStripTree(3), ThreeTabs.value, TabD);
  }
}
